=== FILE: README.md ===
# Tile view extension, modelled in Dafny

A Dafny model of the three scripts of a browser extension that shows several
web pages side by side:

- **the configuration popup** (`popup.js`). The user picks a panel count and
  types one address per panel. Every change is written to local storage. The
  open button normalises the addresses and opens the panel view with the
  addresses and the count as launch parameters.
- **the panel view** (`panel.js`). It holds a grid of embedded frames and one
  shared address field that edits the selected panel. Each panel has its own
  zoom, and there is a view-wide fit-to-tile switch. The view saves a snapshot
  of its panels to local storage, and on the next start it restores that
  snapshot when its shape matches.
- **the background tiler** (`tiler.js`). On a `split` message it moves the
  first tabs of the current window into new windows laid out as a grid over
  the display.

Every handler is a pure transition on an immutable state, for example
`View -> View` or `Popup -> Popup`. Local storage is a field of that state, so
"what gets saved" is part of each transition's result. Browser calls become
data: the tabs and the display's work area are parameters, and the windows
the tiler asks for are its result.

Modules:

- `Wrappers`: `Option`, `Min` and `Max`.
- `JsText`: JavaScript's `String.prototype.trim` and `startsWith`, over JavaScript's whitespace set.
- `GridLayout`: the grid's columns and rows for a panel count.
- `GridView`: the panel view. It covers selection, typing, Enter, zoom, the fit switch, and saving and restoring. It also has the events as data and the invariant they keep.
- `ConfigForm`: the popup.
- `WindowTiler`: the tiler.
- `Handoff`: how the popup's output meets the panel view's input.

Conventions:

- Zoom factors are integers counted in tenths: 10 stands for 1.0, and one button press is 1.
- A panel's missing pending address is the empty string. The source tests it for truthiness, so empty and missing behave the same.
- The panel's highlight models the CSS class that marks the selected panel.
- The tiler's arithmetic follows JavaScript for every integer input. `Math.floor` of a quotient is written out, because Dafny's division is Euclidean.

## Model

| member | source | states |
|---|---|---|
| `JsText.Trim` | popup.js:53 | the result has no leading or trailing whitespace character and is no longer than the input |
| `JsText.TrimStart` | popup.js:53 | drops exactly the leading whitespace: the dropped prefix is all whitespace and what remains does not start with whitespace |
| `JsText.TrimEnd` | popup.js:53 | drops exactly the trailing whitespace: the dropped suffix is all whitespace and what remains does not end with whitespace |
| `JsText.TrimSplits` | popup.js:53 | trimming both ends is trimming the start and then the end |
| `JsText.TrimIdempotent` | panel.js:86-87 | trimming an already trimmed text changes nothing |
| `JsText.TrimEmptyIffAllSpace` | popup.js:84-85 | a text trims to empty exactly when it is whitespace only (both directions) |
| `GridLayout.CeilSqrt` | panel.js:18 | the result is the least number whose square reaches the count (`Math.ceil(Math.sqrt(count))`) |
| `GridLayout.CeilDiv` | panel.js:19 | the least quotient whose product with the divisor reaches the dividend (`Math.ceil(count / cols)`) |
| `GridLayout.LayoutFor` | panel.js:6-20 | 2, 4 and 6 panels get 2x1, 2x2 and 3x2. Any other count gets the least square-covering number of columns. The grid always holds every panel, and its last row is non-empty |
| `GridLayout.FixedLayoutsFollowGeneralRule` | panel.js:7-16 | the three fixed layouts are the ones the general rule would give |
| `GridView.BuildPanels` | panel.js:213-220 | one panel per launch address up to the count, each showing its launch address at zoom 1.0 |
| `GridView.Init` | panel.js:32-41 | the started view has `min(addresses, count)` panels and panel 0 selected and highlighted. Its field shows the first address. The fit switch is on unless the stored preference is "false". The panels are built as at panel.js lines 171-220, and panel 0 is selected as at lines 510-512 |
| `GridView.SelectPanel` | panel.js:84-107 | the field's trimmed text is kept as the old selection's pending address. Only the clicked panel is highlighted. An existing panel becomes the selection, and the field shows its pending address, else its current one, else keeps its text. A missing panel changes neither selection nor field. Nothing is saved |
| `GridView.TypeAddress` | panel.js:122-127 | the raw text becomes the selected panel's pending address and nothing else changes |
| `GridView.NormalizeAddress` | panel.js:143-146 | the result always has an `http://`, `https://` or `about:` scheme. An address that already has one is unchanged; otherwise `https://` is prefixed |
| `GridView.NormalizeIdempotent` | panel.js:143-146 | normalising twice is normalising once |
| `GridView.PressEnter` | panel.js:137-157 | a blank field or no selection changes nothing. Otherwise only the selected panel is repointed, to the normalised trimmed text, which the field then shows, and the snapshot of the new view is saved |
| `GridView.EnterTwiceIsEnterOnce` | panel.js:137-157 | pressing Enter again on what Enter just committed changes nothing |
| `GridView.EnterOnCommittedKeepsPanels` | panel.js:140-150 | Enter on a non-empty, trimmed address with an `http://`, `https://` or `about:` scheme that the selected panel already shows leaves every panel as it was. An address without a scheme would be repointed to its `https://` form |
| `GridView.PendingEditSurvivesSwitch` | panel.js:86-105 | an uncommitted edit survives switching to another panel and back: it is shown again, trimmed, and the panel still shows its old address |
| `GridView.Snapshot` | panel.js:110-119 | the saved record has one address and one zoom per panel (a zero zoom saved as 1.0), together with the count, the selection and the fit switch |
| `GridView.ClampZoom` | panel.js:299 | the result lies in [0.5, 3.0] and is the input when the input is in range |
| `GridView.ClampZoomIsNearest` | panel.js:299 | the clamped zoom is the allowed zoom nearest to the requested one |
| `GridView.HandleZoom` | panel.js:300-304 | only that panel's zoom changes, to the clamped sum with a zero zoom counting as 1.0; the view is saved |
| `GridView.EventsKeepZoomInRange` | panel.js:299-304 | without a restore, no sequence of clicks, edits, Enters, zoom presses or fit toggles takes a zoom outside [0.5, 3.0] |
| `GridView.RestoredZoomIsNotClamped` | panel.js:485-490 | a restored zoom bypasses the clamp: a stored 10.0 comes back as 10.0 |
| `GridView.SetFit` | panel.js:129-134 | the switch takes the checkbox's value, and the stored preference reads back as that value. The saved snapshot and everything else stay as they were |
| `GridView.FitPreferencePersists` | panel.js:37-41 | the preference the checkbox writes is the one the next start reads |
| `GridView.FitOffThenOn` | panel.js:129-134 | turning the switch off and on restores the view, apart from the stored preference |
| `GridView.FitToggleLostOnRestart` | panel.js:494-498 | a toggle made after the last snapshot is undone by the next start, because the restored snapshot carries the old switch |
| `GridView.RestoreUrls` | panel.js:478-483 | a saved address repoints a panel only when it is non-empty and differs from that panel's launch address |
| `GridView.RestoreZooms` | panel.js:485-490 | each panel with a saved zoom takes it (zero reads as 1.0); the others keep theirs |
| `GridView.ApplySaved` | panel.js:476-498 | a usable snapshot changes only the panels' addresses and zooms and the fit switch, each per its rule |
| `GridView.LoadPanelState` | panel.js:470-508 | with no snapshot, or one whose count or address count differs from the view's count, nothing changes. With a usable one, each panel takes its saved address when that is non-empty and differs from the launch address, and takes its saved zoom (zero reads as 1.0). The fit switch takes the saved value when there is one. The selection moves to the saved index when it names a panel. Then, as a click on that panel does, the field's trimmed text, when not blank, becomes the old selection's pending address, only that panel is highlighted, and the field shows the panel's pending address, else its restored address, else keeps its text. Without that re-selection the field, the highlights and the pending addresses stay as they were. Panel numbers, storage and launch parameters never change |
| `GridView.LaunchReselects` | panel.js:499-515 | a start with a usable snapshot naming an existing panel ends with that panel selected again on the restored view; this includes a launch list shorter than the count |
| `GridView.Launch` | panel.js:510-515 | the started view keeps its launch parameters and has `min(addresses, count)` panels |
| `GridView.ReachableWellFormed` | panel.js:84-157 | every view reachable from a start by clicks, edits, Enter, zoom presses, fit toggles and restores is well formed. It has one panel per address up to the count, a valid selection, panel indices equal to positions, no zero zoom, and exactly the selected panel highlighted. A click or zoom press always names an existing panel, since each panel's handlers pass its own index (panel.js lines 187-191) |
| `GridView.UnusableStateKeepsLaunchUrls` | panel.js:476 | with a snapshot of the wrong shape, the view shows its launch addresses at zoom 1.0 |
| `GridView.SaveRestoreRoundTrip` | panel.js:110-119 | saving a full view and starting the same launch again brings back every non-empty address (an empty one falls back to the launch address), every zoom, the selection, its highlight and the fit switch |
| `GridView.ShortLaunchNeverRestores` | panel.js:476 | a view launched with fewer addresses than its count saves a snapshot that no later start accepts |
| `GridView.LaunchKeepsSelectionOutOfRange` | panel.js:499-515 | a start with a usable snapshot whose selection names no panel is the restored view with the launch selection, field and highlight left as they were |
| `GridView.LaunchWithoutSnapshotIsInit` | panel.js:470-475 | with no snapshot, or one of another shape, the started view is the constructed one |
| `GridView.EnterAfterRestoreRepointsBack` | panel.js:137-150 | after a restore that repoints panel 0 and selects panel 0 or no panel, Enter before any typing points panel 0 back to the trimmed, schemed launch address |
| `GridView.RestoreShowsLaunchUrlInField` | panel.js:500-503 | after restoring a repointed panel 0 as the selection, the panel shows the restored address but the field shows the launch address |
| `ConfigForm.CreateInputs` | popup.js:23-44 | `max(count, 0)` fields; field i shows saved entry i when there is one, else nothing |
| `ConfigForm.SaveCurrentInputs` | popup.js:46-57 | stores the selector's count and the trimmed fields up to that count that exist |
| `ConfigForm.InitialCount` | popup.js:60-62 | the stored count when an address list is stored and the count is non-zero, else 6; never zero |
| `ConfigForm.OpenPopup` | popup.js:5-14 | the selector shows the stored count (else its page default); the fields are built for the initial count from the stored list |
| `ConfigForm.EditField` | popup.js:38-40 | typing changes exactly one field and leaves the record holding the current fields |
| `ConfigForm.ChangeCount` | popup.js:65-76 | the new fields keep the trimmed entries of fields 1 to 6 and are empty beyond; the record then holds exactly the fields shown |
| `ConfigForm.FormNormalize` | popup.js:84-93 | an empty field opens `about:blank` (and only an empty one); `http://` and `https://` addresses are kept; anything else is prefixed with `https://` |
| `ConfigForm.Submit` | popup.js:79-104 | fails, saving nothing, exactly when the count exceeds the fields. Otherwise launches with the count and one normalised trimmed address per counted field, and saves them |
| `ConfigForm.ReopenShowsSavedInputs` | popup.js:46-62 | closing and reopening after a save shows the same count and the trimmed fields |
| `ConfigForm.CountChangeKeepsEntries` | popup.js:65-76 | changing the count up and back down keeps the trimmed entries that fit, up to the sixth |
| `ConfigForm.ShrinkThenGrowLosesEntries` | popup.js:67-74 | entries beyond a smaller count are dropped: growing back shows them empty |
| `ConfigForm.RunConsistent` | popup.js:65-76 | once a count has been chosen, the selector and the number of fields agree after any further typing or count changes |
| `ConfigForm.SubmitAfterChoosingSucceeds` | popup.js:80-84 | after the user has chosen a count, the open button never fails |
| `ConfigForm.StoredCountWithoutUrlsDesyncs` | popup.js:9-11 | a stored count above six without a stored list shows that count over six fields, and the open button fails. The popup never writes that state itself, since saving always writes both keys (popup.js lines 17-20); it comes only from storage written elsewhere |
| `ConfigForm.SubmittedUrlShape` | popup.js:84-93 | every submitted address is non-empty and trimmed, and is `about:blank` or an http(s) address |
| `ConfigForm.BlankFieldOpensBlankPage` | popup.js:84-93 | a field opens `about:blank` exactly when it is whitespace only |
| `ConfigForm.ResubmitBreaksBlankPage` | popup.js:87-92 | after a blank field was submitted, reopening and submitting again opens `https://about:blank` there |
| `ConfigForm.ResubmitKeepsWebAddresses` | popup.js:87-97 | resubmitting the reopened popup changes no entry except the blank pages |
| `WindowTiler.FloorDiv` | tiler.js:16-17 | `Math.floor` of the quotient, for either sign of divisor |
| `WindowTiler.Needed` | tiler.js:10 | the tabs moved number at most the tabs and at most the cells; when fewer than the tabs, exactly the cells (none when the cells are not positive) |
| `WindowTiler.Windows` | tiler.js:20-33 | one request per tab in tab order, unfocused, at that index's grid cell |
| `WindowTiler.SplitTabs` | tiler.js:7-35 | the loop requests, in order, one unfocused window per tab up to the number of cells, each at its cell |
| `WindowTiler.HandleMessage` | tiler.js:1-5 | only a `split` message tiles; any other message requests nothing |
| `WindowTiler.TileWithinArea` | tiler.js:16-23 | with at least one column and row, every tile lies within the area's width and height |
| `WindowTiler.TilesDisjoint` | tiler.js:22-23 | two different tiles never overlap |
| `WindowTiler.TilesCoverGrid` | tiler.js:16-23 | when cells are at least one pixel, every point of the grid's extent lies in the tile of its column and row, and that tile is a cell of the grid |
| `WindowTiler.TilingIsAGrid` | tiler.js:20-33 | all requested windows fit the area's size and are pairwise disjoint |
| `WindowTiler.WindowsIgnoreOrigin` | tiler.js:14-23 | the windows do not depend on where the work area starts |
| `WindowTiler.FirstTileAtScreenOrigin` | tiler.js:22-23 | the first window sits at (0, 0) even when the work area starts elsewhere |
| `Handoff.SubmittedUrlsAreCommitted` | popup.js:84-93 | every submitted address is a fixed point of the panel's Enter normalisation of trimmed text |
| `Handoff.NormalizersAgreeExceptAbout` | popup.js:87-89 | on non-empty text the popup's and the view's normalisations agree exactly when the text does not start with `about:` (compare panel.js lines 144-146) |
| `Handoff.SubmitOpensOnePanelPerField` | panel.js:470-483 | a successful submit with a count of at least one opens exactly that many panels. Each shows its submitted address, unless a stored snapshot of the same count holds a non-empty, different address for it; then it shows that older address |
| `Handoff.StaleSnapshotOverridesSubmit` | panel.js:474-482 | submitting `new.com` for one panel while a one-panel snapshot of `https://old.com` is stored opens the view on `https://old.com` |
| `Handoff.EnterAfterSubmitKeepsPanels` | panel.js:137-157 | when no snapshot of the submitted count is stored, Enter in the freshly opened view, before any typing, repoints no panel |
| `Handoff.EnterAfterStaleRestoreRepointsBack` | panel.js:137-157 | when a stored snapshot that selects panel 0, or no panel, repoints panel 0 away from the first submitted address, Enter before any typing points it back to that address |

## Left out

- Page markup, styling, the overlays and the open-externally button: they draw the view and hold no logic of the model.
- Fitting a page into a tile (`applyFit`): floating-point scaling of the frame. The model keeps only the fit switch and the zoom that feed it.
- Frame load tracking and the blocked-content overlay: these depend on the loaded page.
- The 100 ms blur timer and the resize listener: timers and layout events. A restore is the `LoadState` event, which may come at any point.
- Storage, JSON and URI encoding: the stored records and the launch parameters are values of the model. The launch parameters do not survive the trip unchanged in general: the view decodes the address list once more than the popup encodes it (panel.js:2, popup.js:99), so every `%` in an address is decoded a second time. A `%` followed by two hex digits turns into another character, and the address arrives altered. A `%` not followed by two hex digits makes the decoding throw. A `%22` becomes a quote that breaks the JSON parse. In those two cases the view script stops before building any panel. The `Handoff` lemmas assume the view receives the submitted list and count as they were.
- Browser calls: tab and display queries are parameters, and window creation is a returned request. A failing request, or a tab that disappears while the tiler awaits, is not modelled.
- Panel counts that are not a number, and counts below one, in the panel view: `Init` and `Launch` require a count of at least one. The popup and the tiler take any integer.
- Stored values of the wrong JSON type (non-string addresses, a non-array zoom list): the stored records are typed.
- The address field's starting text: it is taken to be empty. It comes from the page markup, which is not part of this model.
- `Handoff.EnterAfterSubmitKeepsPanels`: no claim is made whenever a usable snapshot is stored, other than the cases `Handoff.EnterAfterStaleRestoreRepointsBack` states.
- Whether the popup's selector accepts a stored count as one of its options: the selector's value is the stored count as parsed.
- `GridView.HandleZoom`: the zoom step is exactly one tenth. The source's repeated 0.1 additions in floating point can drift slightly; the model does not follow that.
- `GridLayout.CeilSqrt`: computed exactly. The source's double-precision `Math.ceil(Math.sqrt(count))` equals the exact ceiling square root for every count up to 2^52; the model does not follow the floating-point result beyond that.
- The tiler's grid for non-positive or mixed-sign column and row counts is computed, but the grid lemmas assume at least one column and one row.

=== FILE: gridview.dfy ===
/**
  The panel view: a grid of embedded frames, one shared address field, a
  per-panel zoom and a view-wide fit-to-tile switch, with the snapshot the
  view writes to local storage and the shape-checked restoration of it.

  Each user or timer event is one pure transition `View -> View`.
  Zoom factors are integers counted in tenths (10 stands for 1.0).
*/
module GridView {
  import opened Wrappers
  import opened JsText

  const DefaultZoom: int := 10
  const MinZoom: int := 5
  const MaxZoom: int := 30

  /**
    One tile. `pendingUrl` is an uncommitted edit from the address field,
    with "" standing for "none"; `highlighted` is the "panel-selected" mark.
  */
  datatype Panel = Panel(index: nat, currentUrl: string, pendingUrl: string, zoom: int, highlighted: bool)

  /**
    The object stored under "panelState". Fields that the restoration code
    tests for presence or type are optional here.
  */
  datatype SavedState = SavedState(
    urls: seq<string>,
    zooms: Option<seq<int>>,
    count: int,
    selectedIndex: int,
    fitToTile: Option<bool>)

  /**
    The two local-storage keys the view uses. `None` is an absent key or,
    for `panelState`, text that does not parse.
  */
  datatype Store = Store(panelState: Option<SavedState>, fitPref: Option<string>)

  /**
    The whole view: the launch parameters (`count`, `urls`), the panels, the selected index, the fit switch, the address field's
    text and the local storage as this page sees it.
  */
  datatype View = View(
    count: int,
    urls: seq<string>,
    panels: seq<Panel>,
    selected: int,
    fitToTile: bool,
    address: string,
    store: Store)

  /** The source's `zoom || 1`: a zero zoom reads as 1.0. */
  function ZoomOrDefault(z: int): int {
    if z == 0 then DefaultZoom else z
  }

  /** Marks panel `index` and unmarks every other one (all of them when `index` names no panel). */
  function SetHighlight(ps: seq<Panel>, index: int, from: nat := 0): (r: seq<Panel>)
    ensures |r| == |ps|
    ensures forall i :: 0 <= i < |r| ==> r[i] == ps[i].(highlighted := i + from == index)
    decreases |ps|
  {
    if ps == [] then []
    else [ps[0].(highlighted := from == index)] + SetHighlight(ps[1..], index, from + 1)
  }

  // ---------------------------------------------------------------------------
  // Construction
  // ---------------------------------------------------------------------------

  /** The panels built from the launch list: one per URL, for the first `count` URLs. */
  function BuildPanels(urls: seq<string>, count: int, from: nat := 0): (ps: seq<Panel>)
    requires count >= 1
    ensures |ps| == Min(|urls|, count)
    ensures forall i :: 0 <= i < |ps| ==>
              ps[i] == Panel(i + from, urls[i], "", DefaultZoom, false)
    decreases |urls|
  {
    if urls == [] || count == 1 then
      (if urls == [] then [] else [Panel(from, urls[0], "", DefaultZoom, false)])
    else [Panel(from, urls[0], "", DefaultZoom, false)] + BuildPanels(urls[1..], count - 1, from + 1)
  }

  /**
    The view right after its script ran: panels built, fit preference read
    (anything but the text "false" means on), and panel 0 selected when there
    is one. The address field starts empty.
  */
  function Init(urls: seq<string>, count: int, store: Store): (v: View)
    requires count >= 1
    ensures v.count == count && v.urls == urls && v.store == store
    ensures |v.panels| == Min(|urls|, count)
    ensures forall i :: 0 <= i < |v.panels| ==>
              && v.panels[i].index == i
              && v.panels[i].currentUrl == urls[i]
              && v.panels[i].zoom == DefaultZoom
              && v.panels[i].pendingUrl == ""
              && (v.panels[i].highlighted <==> i == 0)
    ensures v.selected == 0
    ensures v.fitToTile <==> store.fitPref != Some("false")
    ensures v.address == (if |v.panels| > 0 then urls[0] else "")
  {
    var v0 := View(count, urls, BuildPanels(urls, count), 0,
                   store.fitPref != Some("false"), "", store);
    if |v0.panels| > 0 then SelectPanel(v0, 0) else v0
  }

  // ---------------------------------------------------------------------------
  // Events
  // ---------------------------------------------------------------------------

  /** The field's trimmed text, when not blank, stored as the selected panel's pending URL. */
  function KeepEdit(v: View): (ps: seq<Panel>)
    ensures |ps| == |v.panels|
    ensures forall i :: 0 <= i < |ps| ==>
              ps[i] == (if i == v.selected && Trim(v.address) != "" then v.panels[i].(pendingUrl := Trim(v.address))
                        else v.panels[i])
  {
    var t := Trim(v.address);
    if 0 <= v.selected < |v.panels| && t != "" then
      v.panels[v.selected := v.panels[v.selected].(pendingUrl := t)]
    else v.panels
  }

  /**
    A click on panel `index`. The text in the address field (trimmed, when
    not blank) is first kept as the old selection's pending URL; then only
    panel `index` is marked and, when it exists, it becomes the selection and
    the field shows its pending URL, else its current URL, else keeps its
    text. Nothing is written to storage.
  */
  function SelectPanel(v: View, index: int): (r: View)
    ensures r.count == v.count && r.urls == v.urls
    ensures r.fitToTile == v.fitToTile && r.store == v.store
    ensures |r.panels| == |v.panels|
    ensures forall i :: 0 <= i < |r.panels| ==>
              && r.panels[i].index == v.panels[i].index
              && r.panels[i].currentUrl == v.panels[i].currentUrl
              && r.panels[i].zoom == v.panels[i].zoom
              && (r.panels[i].highlighted <==> i == index)
              && r.panels[i].pendingUrl ==
                   (if i == v.selected && Trim(v.address) != "" then Trim(v.address)
                    else v.panels[i].pendingUrl)
    ensures 0 <= index < |v.panels| ==> r.selected == index
    ensures 0 <= index < |v.panels| ==>
              r.address == (if r.panels[index].pendingUrl != "" then r.panels[index].pendingUrl
                            else if v.panels[index].currentUrl != "" then v.panels[index].currentUrl
                            else v.address)
    ensures !(0 <= index < |v.panels|) ==> r.selected == v.selected && r.address == v.address
  {
    var kept := KeepEdit(v);
    var marked := SetHighlight(kept, index);
    if 0 <= index < |marked| then
      var shown := if marked[index].currentUrl != "" then marked[index].currentUrl else v.address;
      var field := if marked[index].pendingUrl != "" then marked[index].pendingUrl else shown;
      v.(panels := marked, selected := index, address := field)
    else
      v.(panels := marked)
  }

  /** Typing in the address field: the raw text becomes the selected panel's pending URL. */
  function TypeAddress(v: View, text: string): (r: View)
    ensures r.address == text
    ensures r.selected == v.selected && r.store == v.store && r.fitToTile == v.fitToTile
    ensures |r.panels| == |v.panels|
    ensures forall i :: 0 <= i < |r.panels| ==>
              r.panels[i] == (if i == v.selected then v.panels[i].(pendingUrl := text) else v.panels[i])
    ensures r.count == v.count && r.urls == v.urls
  {
    if 0 <= v.selected < |v.panels| then
      v.(address := text, panels := v.panels[v.selected := v.panels[v.selected].(pendingUrl := text)])
    else
      v.(address := text)
  }

  /** The view's address normalisation: keep `http://`, `https://` and `about:` addresses, else prefix `https://`. */
  predicate HasViewScheme(t: string) {
    StartsWith(t, "http://") || StartsWith(t, "https://") || StartsWith(t, "about:")
  }

  function NormalizeAddress(t: string): (u: string)
    ensures HasViewScheme(u)
    ensures HasViewScheme(t) ==> u == t
    ensures !HasViewScheme(t) ==> u == "https://" + t
  {
    if HasViewScheme(t) then t else "https://" + t
  }

  /** Normalising an address twice gives the same result as normalising it once. */
  lemma NormalizeIdempotent(t: string)
    ensures NormalizeAddress(NormalizeAddress(t)) == NormalizeAddress(t)
  {
  }

  /** A normalised non-empty trimmed address is still trimmed, so committing it again changes nothing. */
  lemma NormalizePreservesTrimmed(t: string)
    requires t != "" && IsTrimmed(t)
    ensures IsTrimmed(NormalizeAddress(t))
    ensures Trim(NormalizeAddress(t)) == NormalizeAddress(t)
  {
    var u := NormalizeAddress(t);
    if !HasViewScheme(t) {
      assert u[|u| - 1] == t[|t| - 1];
      assert u[0] == 'h';
    }
    TrimOfTrimmed(u);
  }

  function PanelUrls(ps: seq<Panel>): (r: seq<string>)
    ensures |r| == |ps|
    ensures forall i :: 0 <= i < |ps| ==> r[i] == ps[i].currentUrl
  {
    if ps == [] then [] else [ps[0].currentUrl] + PanelUrls(ps[1..])
  }

  function PanelZooms(ps: seq<Panel>): (r: seq<int>)
    ensures |r| == |ps|
    ensures forall i :: 0 <= i < |ps| ==> r[i] == ZoomOrDefault(ps[i].zoom)
  {
    if ps == [] then [] else [ZoomOrDefault(ps[0].zoom)] + PanelZooms(ps[1..])
  }

  /** The object `savePanelState` writes: every panel's URL and zoom, in panel order. */
  function Snapshot(v: View): (s: SavedState)
    ensures s.count == v.count && s.selectedIndex == v.selected && s.fitToTile == Some(v.fitToTile)
    ensures |s.urls| == |v.panels|
    ensures s.zooms.Some? && |s.zooms.value| == |v.panels|
    ensures forall i :: 0 <= i < |v.panels| ==>
              s.urls[i] == v.panels[i].currentUrl && s.zooms.value[i] == ZoomOrDefault(v.panels[i].zoom)
  {
    SavedState(PanelUrls(v.panels), Some(PanelZooms(v.panels)), v.count, v.selected, Some(v.fitToTile))
  }

  /** `savePanelState`: the view with its snapshot written under "panelState". */
  function Persist(v: View): View
  {
    v.(store := v.store.(panelState := Some(Snapshot(v))))
  }

  /**
    Enter in the address field. A blank field, or no selected panel, changes
    nothing; otherwise the selected panel is pointed at the normalised
    address, the field shows it, and the state is saved.
  */
  function PressEnter(v: View): (r: View)
    ensures Trim(v.address) == "" || !(0 <= v.selected < |v.panels|) ==> r == v
    ensures Trim(v.address) != "" && 0 <= v.selected < |v.panels| ==>
              && r.address == NormalizeAddress(Trim(v.address))
              && |r.panels| == |v.panels|
              && r.panels[v.selected] == v.panels[v.selected].(currentUrl := r.address)
              && (forall i :: 0 <= i < |v.panels| && i != v.selected ==> r.panels[i] == v.panels[i])
              && r.selected == v.selected && r.fitToTile == v.fitToTile
              && r.count == v.count && r.urls == v.urls
              && r.store == v.store.(panelState := Some(Snapshot(r)))
  {
    var t := Trim(v.address);
    if t != "" && 0 <= v.selected < |v.panels| then
      var u := NormalizeAddress(t);
      Persist(v.(panels := v.panels[v.selected := v.panels[v.selected].(currentUrl := u)], address := u))
    else v
  }

  /** `Math.min(3, Math.max(0.5, z))`, in tenths. */
  function ClampZoom(z: int): (r: int)
    ensures MinZoom <= r <= MaxZoom
    ensures MinZoom <= z <= MaxZoom ==> r == z
    ensures z < MinZoom ==> r == MinZoom
    ensures z > MaxZoom ==> r == MaxZoom
  {
    Min(MaxZoom, Max(MinZoom, z))
  }

  function Dist(a: int, b: int): nat {
    if a <= b then b - a else a - b
  }

  /** The clamped zoom is the allowed zoom nearest to the requested one. */
  lemma ClampZoomIsNearest(z: int, w: int)
    requires MinZoom <= w <= MaxZoom
    ensures Dist(ClampZoom(z), z) <= Dist(w, z)
  {
  }

  /**
    A click on panel `i`'s zoom button, `delta` tenths: a zero zoom counts as
    1.0, the sum is clamped to [0.5, 3.0], and the state is saved.
  */
  function HandleZoom(v: View, i: int, delta: int): (r: View)
    requires 0 <= i < |v.panels|
    ensures |r.panels| == |v.panels|
    ensures r.panels[i] == v.panels[i].(zoom := ClampZoom(ZoomOrDefault(v.panels[i].zoom) + delta))
    ensures MinZoom <= r.panels[i].zoom <= MaxZoom
    ensures forall j :: 0 <= j < |v.panels| && j != i ==> r.panels[j] == v.panels[j]
    ensures r.selected == v.selected && r.address == v.address && r.fitToTile == v.fitToTile
    ensures r.count == v.count && r.urls == v.urls
    ensures r.store == v.store.(panelState := Some(Snapshot(r)))
  {
    var z := ClampZoom(ZoomOrDefault(v.panels[i].zoom) + delta);
    Persist(v.(panels := v.panels[i := v.panels[i].(zoom := z)]))
  }

  /** The fit-to-tile checkbox: the switch changes and only the "fitToTile" key is written. */
  function SetFit(v: View, checked: bool): (r: View)
    ensures r.fitToTile == checked
    ensures r.store.fitPref.Some? && (r.store.fitPref != Some("false") <==> checked)
    ensures r.store.panelState == v.store.panelState
    ensures r == v.(fitToTile := r.fitToTile, store := r.store)
  {
    v.(fitToTile := checked, store := v.store.(fitPref := Some(if checked then "true" else "false")))
  }

  /** The saved URL for panel `i` replaces the current one only when non-empty and different from the launch URL. */
  predicate RepointsPanel(urls: seq<string>, i: int, saved: string) {
    saved != "" && (!(0 <= i < |urls|) || saved != urls[i])
  }

  /** Panel `i` after the URL step of restoration. */
  function RestoredUrlPanel(ps: seq<Panel>, saved: seq<string>, urls: seq<string>, i: nat): Panel
    requires i < |ps|
  {
    if i < |saved| && RepointsPanel(urls, i, saved[i]) then ps[i].(currentUrl := saved[i]) else ps[i]
  }

  function RestoreUrls(ps: seq<Panel>, saved: seq<string>, urls: seq<string>, n: nat := |ps|): (r: seq<Panel>)
    requires n <= |ps|
    ensures |r| == n
    ensures forall i :: 0 <= i < n ==>
              r[i] == (if i < |saved| && RepointsPanel(urls, i, saved[i]) then ps[i].(currentUrl := saved[i]) else ps[i])
  {
    if n == 0 then [] else RestoreUrls(ps, saved, urls, n - 1) + [RestoredUrlPanel(ps, saved, urls, n - 1)]
  }

  function RestoreZooms(ps: seq<Panel>, zooms: seq<int>): (r: seq<Panel>)
    ensures |r| == |ps|
    ensures forall i :: 0 <= i < |ps| ==>
              r[i] == (if i < |zooms| then ps[i].(zoom := ZoomOrDefault(zooms[i])) else ps[i])
  {
    if ps == [] then []
    else if zooms == [] then ps
    else [ps[0].(zoom := ZoomOrDefault(zooms[0]))] + RestoreZooms(ps[1..], zooms[1..])
  }

  /** The saved state is used only when its count and its URL list both match the view's count. */
  predicate Usable(s: SavedState, count: int) {
    s.count == count && |s.urls| == count
  }

  /** The URL, zoom and fit parts of a usable saved state applied to the view, before re-selection. */
  function ApplySaved(v: View, s: SavedState): (r: View)
    ensures r == v.(panels := r.panels, fitToTile := r.fitToTile)
    ensures r.fitToTile == (if s.fitToTile.Some? then s.fitToTile.value else v.fitToTile)
    ensures |r.panels| == |v.panels|
    ensures forall i :: 0 <= i < |v.panels| ==>
              && r.panels[i] == v.panels[i].(currentUrl := r.panels[i].currentUrl, zoom := r.panels[i].zoom)
              && r.panels[i].currentUrl ==
                   (if i < |s.urls| && RepointsPanel(v.urls, i, s.urls[i]) then s.urls[i] else v.panels[i].currentUrl)
              && r.panels[i].zoom ==
                   (if s.zooms.Some? && i < |s.zooms.value| then ZoomOrDefault(s.zooms.value[i])
                    else v.panels[i].zoom)
  {
    var ps1 := RestoreUrls(v.panels, s.urls, v.urls);
    var ps2 := if s.zooms.Some? then RestoreZooms(ps1, s.zooms.value) else ps1;
    v.(panels := ps2, fitToTile := if s.fitToTile.Some? then s.fitToTile.value else v.fitToTile)
  }

  /**
    `loadPanelState`: apply the stored snapshot when its shape matches,
    repointing panels, restoring zooms (unclamped) and the fit switch, and
    re-selecting the saved index when it names a panel. A stored state of
    another shape, or none, is ignored.
  */
  function LoadPanelState(v: View): (r: View)
    ensures (v.store.panelState.None? || !Usable(v.store.panelState.value, v.count)) ==> r == v
    ensures v.store.panelState.Some? && Usable(v.store.panelState.value, v.count) ==>
              var s := v.store.panelState.value;
              && r.count == v.count && r.urls == v.urls && r.store == v.store
              && r.fitToTile == (if s.fitToTile.Some? then s.fitToTile.value else v.fitToTile)
              && r.selected == (if 0 <= s.selectedIndex < |v.panels| then s.selectedIndex else v.selected)
              && |r.panels| == |v.panels|
              && forall i :: 0 <= i < |v.panels| ==>
                   && r.panels[i].currentUrl ==
                        (if i < |s.urls| && RepointsPanel(v.urls, i, s.urls[i]) then s.urls[i] else v.panels[i].currentUrl)
                   && r.panels[i].zoom ==
                        (if s.zooms.Some? && i < |s.zooms.value| then ZoomOrDefault(s.zooms.value[i]) else v.panels[i].zoom)
    ensures v.store.panelState.Some? && Usable(v.store.panelState.value, v.count) ==>
              var k := v.store.panelState.value.selectedIndex;
              var again := 0 <= k < |v.panels|;
              && |r.panels| == |v.panels|
              && (forall i :: 0 <= i < |v.panels| ==>
                   && r.panels[i].index == v.panels[i].index
                   && r.panels[i].highlighted == (if again then i == k else v.panels[i].highlighted)
                   && r.panels[i].pendingUrl ==
                        (if again && i == v.selected && Trim(v.address) != "" then Trim(v.address)
                         else v.panels[i].pendingUrl))
              && r.address ==
                   (if !again then v.address
                    else if r.panels[k].pendingUrl != "" then r.panels[k].pendingUrl
                    else if r.panels[k].currentUrl != "" then r.panels[k].currentUrl
                    else v.address)
  {
    match v.store.panelState
    case None => v
    case Some(s) =>
      if !Usable(s, v.count) then v
      else
        var v1 := ApplySaved(v, s);
        if 0 <= s.selectedIndex < |v1.panels| then SelectPanel(v1, s.selectedIndex) else v1
  }

  /** Page start-up: the script runs, then, when there is a panel, the saved state is loaded. */
  function Launch(urls: seq<string>, count: int, store: Store): (v: View)
    requires count >= 1
    ensures v.count == count && v.urls == urls && |v.panels| == Min(|urls|, count)
  {
    var v0 := Init(urls, count, store);
    if |v0.panels| > 0 then LoadPanelState(v0) else v0
  }

  // ---------------------------------------------------------------------------
  // Events as data, and the invariant every event keeps
  // ---------------------------------------------------------------------------

  datatype Event =
    | Click(index: int)
    | Type(text: string)
    | Enter
    | Zoom(panel: int, delta: int)
    | ToggleFit(checked: bool)
    | LoadState

  /**
    One event. A click or a zoom press names an existing panel: each panel's
    container and buttons pass their own index, so an index naming no panel
    has nothing to click and changes nothing.
  */
  function Step(v: View, e: Event): View {
    match e
    case Click(i) => if 0 <= i < |v.panels| then SelectPanel(v, i) else v
    case Type(t) => TypeAddress(v, t)
    case Enter => PressEnter(v)
    case Zoom(i, d) => if 0 <= i < |v.panels| then HandleZoom(v, i, d) else v
    case ToggleFit(b) => SetFit(v, b)
    case LoadState => LoadPanelState(v)
  }

  function Run(v: View, es: seq<Event>): View
    decreases |es|
  {
    if es == [] then v else Run(Step(v, es[0]), es[1..])
  }

  /**
    What holds of every view the page can reach: panels numbered by position,
    one per launch URL up to `count`, no zero zoom, a selection that names a
    panel whenever there is one, and the mark on exactly the selected panel.
  */
  predicate WellFormed(v: View) {
    && v.count >= 1
    && |v.panels| == Min(|v.urls|, v.count)
    && (|v.panels| > 0 ==> 0 <= v.selected < |v.panels|)
    && (forall i :: 0 <= i < |v.panels| ==> v.panels[i].index == i)
    && (forall i :: 0 <= i < |v.panels| ==> v.panels[i].zoom != 0)
    && (forall i :: 0 <= i < |v.panels| ==> (v.panels[i].highlighted <==> i == v.selected))
  }

  lemma InitWellFormed(urls: seq<string>, count: int, store: Store)
    requires count >= 1
    ensures WellFormed(Init(urls, count, store))
  {
  }

  lemma SelectPanelWellFormed(v: View, index: int)
    requires WellFormed(v) && 0 <= index < |v.panels|
    ensures WellFormed(SelectPanel(v, index))
  {
    var r := SelectPanel(v, index);
    assert forall i :: 0 <= i < |r.panels| ==> (r.panels[i].highlighted <==> i == r.selected);
  }

  lemma TypeAddressWellFormed(v: View, text: string)
    requires WellFormed(v)
    ensures WellFormed(TypeAddress(v, text))
  {
  }

  lemma PressEnterWellFormed(v: View)
    requires WellFormed(v)
    ensures WellFormed(PressEnter(v))
  {
    var r := PressEnter(v);
    if Trim(v.address) != "" && 0 <= v.selected < |v.panels| {
      assert forall i :: 0 <= i < |r.panels| ==>
        r.panels[i].index == v.panels[i].index && r.panels[i].zoom == v.panels[i].zoom
        && r.panels[i].highlighted == v.panels[i].highlighted;
    }
  }

  lemma HandleZoomWellFormed(v: View, i: int, delta: int)
    requires WellFormed(v) && 0 <= i < |v.panels|
    ensures WellFormed(HandleZoom(v, i, delta))
  {
  }

  lemma ApplySavedWellFormed(v: View, s: SavedState)
    requires WellFormed(v)
    ensures WellFormed(ApplySaved(v, s))
  {
  }

  lemma LoadPanelStateWellFormed(v: View)
    requires WellFormed(v)
    ensures WellFormed(LoadPanelState(v))
  {
    if v.store.panelState.Some? && Usable(v.store.panelState.value, v.count) {
      var s := v.store.panelState.value;
      ApplySavedWellFormed(v, s);
      if 0 <= s.selectedIndex < |v.panels| {
        SelectPanelWellFormed(ApplySaved(v, s), s.selectedIndex);
      }
    }
  }

  lemma StepWellFormed(v: View, e: Event)
    requires WellFormed(v)
    ensures WellFormed(Step(v, e))
  {
    match e
    case Click(i) => if 0 <= i < |v.panels| { SelectPanelWellFormed(v, i); }
    case LoadState => LoadPanelStateWellFormed(v);
    case Type(t) => TypeAddressWellFormed(v, t);
    case Enter => PressEnterWellFormed(v);
    case Zoom(i, d) => if 0 <= i < |v.panels| { HandleZoomWellFormed(v, i, d); }
    case ToggleFit(b) =>
  }

  lemma {:induction false} RunWellFormed(v: View, es: seq<Event>)
    requires WellFormed(v)
    ensures WellFormed(Run(v, es))
    decreases |es|
  {
    if es != [] {
      StepWellFormed(v, es[0]);
      RunWellFormed(Step(v, es[0]), es[1..]);
    }
  }

  /** Every view reachable from start-up by any sequence of events is well formed. */
  lemma ReachableWellFormed(urls: seq<string>, count: int, store: Store, es: seq<Event>)
    requires count >= 1
    ensures WellFormed(Run(Launch(urls, count, store), es))
  {
    var v0 := Init(urls, count, store);
    InitWellFormed(urls, count, store);
    var v1 := Launch(urls, count, store);
    assert WellFormed(v1) by {
      if |v0.panels| > 0 {
        LoadPanelStateWellFormed(v0);
      }
    }
    RunWellFormed(v1, es);
  }

  lemma UpdateWithSame<T>(s: seq<T>, i: int)
    requires 0 <= i < |s|
    ensures s[i := s[i]] == s
  {
  }

  // ---------------------------------------------------------------------------
  // Properties of the events
  // ---------------------------------------------------------------------------

  /** Enter on an address that is already committed to the selected panel and saved changes nothing. */
  lemma EnterOnCommittedIsNoop(r: View)
    requires 0 <= r.selected < |r.panels|
    requires r.address != "" && IsTrimmed(r.address) && HasViewScheme(r.address)
    requires r.panels[r.selected].currentUrl == r.address
    requires r.store.panelState == Some(Snapshot(r))
    ensures PressEnter(r) == r
  {
    var t := Trim(r.address);
    assert t == r.address by { TrimOfTrimmed(r.address); }
    var u := NormalizeAddress(t);
    assert u == r.address;
    var r1 := r.(panels := r.panels[r.selected := r.panels[r.selected].(currentUrl := u)], address := u);
    assert r1 == r by {
      var p := r.panels[r.selected];
      assert p.(currentUrl := u) == p;
      UpdateWithSame(r.panels, r.selected);
    }
    assert PressEnter(r) == Persist(r1);
  }

  /** Enter on an address already committed to the selected panel leaves every panel as it was. */
  lemma EnterOnCommittedKeepsPanels(v: View)
    requires 0 <= v.selected < |v.panels|
    requires v.address != "" && IsTrimmed(v.address) && HasViewScheme(v.address)
    requires v.panels[v.selected].currentUrl == v.address
    ensures PressEnter(v).panels == v.panels
  {
    TrimOfTrimmed(v.address);
    var p := v.panels[v.selected];
    assert p.(currentUrl := v.address) == p;
    UpdateWithSame(v.panels, v.selected);
  }

  /** Pressing Enter a second time, on the address Enter just put in the field, changes nothing. */
  lemma EnterTwiceIsEnterOnce(v: View)
    ensures PressEnter(PressEnter(v)) == PressEnter(v)
  {
    var t := Trim(v.address);
    if t != "" && 0 <= v.selected < |v.panels| {
      NormalizePreservesTrimmed(t);
      EnterOnCommittedIsNoop(PressEnter(v));
    }
  }

  /**
    An edit typed into the field for panel `a` and not committed survives a
    switch to any panel `b` and back: the field shows it again, trimmed, and
    panel `a` still shows its old address.
  */
  lemma PendingEditSurvivesSwitch(v: View, b: int, t: string)
    requires WellFormed(v) && |v.panels| > 0
    requires 0 <= b < |v.panels|
    requires Trim(t) != ""
    ensures var r := SelectPanel(SelectPanel(TypeAddress(v, t), b), v.selected);
              && r.address == Trim(t)
              && r.selected == v.selected
              && r.panels[v.selected].currentUrl == v.panels[v.selected].currentUrl
              && r.store == v.store
  {
    var a := v.selected;
    var v1 := TypeAddress(v, t);
    var v2 := SelectPanel(v1, b);
    assert v2.panels[a].pendingUrl == Trim(t);
    if a == b {
      TrimIdempotent(t);
    }
  }

  predicate ZoomsInRange(v: View) {
    forall i :: 0 <= i < |v.panels| ==> MinZoom <= v.panels[i].zoom <= MaxZoom
  }

  lemma SelectKeepsZoomInRange(v: View, i: int)
    requires ZoomsInRange(v)
    ensures ZoomsInRange(SelectPanel(v, i))
  {
  }

  lemma EnterKeepsZoomInRange(v: View)
    requires ZoomsInRange(v)
    ensures ZoomsInRange(PressEnter(v))
  {
  }

  lemma StepKeepsZoomInRange(v: View, e: Event)
    requires ZoomsInRange(v) && !e.LoadState?
    ensures ZoomsInRange(Step(v, e))
  {
    match e
    case Click(i) => SelectKeepsZoomInRange(v, i);
    case Type(x) =>
    case Enter => EnterKeepsZoomInRange(v);
    case Zoom(i, d) =>
    case ToggleFit(f) =>
  }

  /** Without a restore, no sequence of events takes any panel's zoom outside [0.5, 3.0]. */
  lemma {:induction false} EventsKeepZoomInRange(v: View, es: seq<Event>)
    requires ZoomsInRange(v)
    requires forall k :: 0 <= k < |es| ==> !es[k].LoadState?
    ensures ZoomsInRange(Run(v, es))
    decreases |es|
  {
    if es != [] {
      StepKeepsZoomInRange(v, es[0]);
      EventsKeepZoomInRange(Step(v, es[0]), es[1..]);
    }
  }

  /** A restored zoom is not clamped: a stored 10.0 comes back as 10.0. */
  lemma RestoredZoomIsNotClamped()
    ensures var store := Store(Some(SavedState(["https://a.com"], Some([100]), 1, 0, None)), None);
            Launch(["https://a.com"], 1, store).panels[0].zoom == 100
  {
    var store := Store(Some(SavedState(["https://a.com"], Some([100]), 1, 0, None)), None);
    var v0 := Init(["https://a.com"], 1, store);
    assert Usable(store.panelState.value, 1);
    assert LoadPanelState(v0).panels[0].zoom == ZoomOrDefault(100);
  }

  /** Turning fit-to-tile off and on again leaves every panel and the rest of the view as it was. */
  lemma FitOffThenOn(v: View)
    requires v.fitToTile
    ensures SetFit(SetFit(v, false), true) == v.(store := v.store.(fitPref := Some("true")))
  {
  }

  /** The fit switch written by the checkbox is the one the next page start reads. */
  lemma FitPreferencePersists(v: View, checked: bool, urls: seq<string>, count: int)
    requires count >= 1
    ensures Init(urls, count, SetFit(v, checked).store).fitToTile == checked
  {
  }

  /**
    The checkbox does not rewrite the saved snapshot, so a saved view whose
    fit switch is then toggled comes back, on the next start, with the switch
    as it was when the snapshot was taken.
  */
  lemma FitToggleLostOnRestart(v: View, checked: bool)
    requires WellFormed(v) && |v.panels| == v.count
    requires v.store.panelState == Some(Snapshot(v))
    ensures Launch(v.urls, v.count, SetFit(v, checked).store).fitToTile == v.fitToTile
  {
    SaveRestoreRoundTrip(v, SetFit(v, checked).store);
  }

  // ---------------------------------------------------------------------------
  // Saving and restoring
  // ---------------------------------------------------------------------------

  /** A stored state of the wrong shape, or none at all, leaves the started view as built from its launch list. */
  lemma UnusableStateKeepsLaunchUrls(urls: seq<string>, count: int, store: Store)
    requires count >= 1
    requires store.panelState.None? || !Usable(store.panelState.value, count)
    ensures var r := Launch(urls, count, store);
              forall i :: 0 <= i < |r.panels| ==> r.panels[i].currentUrl == urls[i] && r.panels[i].zoom == DefaultZoom
  {
  }

  /** A view's snapshot applied to a freshly started view of the same launch, before re-selection. */
  lemma ApplySnapshotToFreshView(v: View, store: Store)
    requires WellFormed(v) && |v.panels| == v.count
    ensures var a := ApplySaved(Init(v.urls, v.count, store), Snapshot(v));
              && |a.panels| == |v.panels|
              && a.fitToTile == v.fitToTile
              && forall i :: 0 <= i < |v.panels| ==>
                   && a.panels[i].currentUrl ==
                        (if v.panels[i].currentUrl != "" then v.panels[i].currentUrl else v.urls[i])
                   && a.panels[i].zoom == v.panels[i].zoom
  {
    var s := Snapshot(v);
    var v0 := Init(v.urls, v.count, store);
    var a := ApplySaved(v0, s);
    forall i | 0 <= i < |v.panels|
      ensures a.panels[i].currentUrl == (if v.panels[i].currentUrl != "" then v.panels[i].currentUrl else v.urls[i])
      ensures a.panels[i].zoom == v.panels[i].zoom
    {
      var c := v.panels[i].currentUrl;
      assert s.urls[i] == c;
      assert v0.panels[i].currentUrl == v.urls[i];
      assert a.panels[i].currentUrl == (if RepointsPanel(v.urls, i, c) then c else v.urls[i]);
    }
  }

  /**
    Saving a view with one panel per requested count and starting the same
    launch again brings back every non-empty URL (an empty one falls back to
    the launch URL), every zoom, the selection and the fit switch.
  */
  lemma SaveRestoreRoundTrip(v: View, store: Store)
    requires WellFormed(v) && |v.panels| == v.count
    requires store.panelState == Some(Snapshot(v))
    ensures var r := Launch(v.urls, v.count, store);
              && |r.panels| == |v.panels|
              && r.selected == v.selected
              && r.fitToTile == v.fitToTile
              && forall i :: 0 <= i < |v.panels| ==>
                   && r.panels[i].currentUrl ==
                        (if v.panels[i].currentUrl != "" then v.panels[i].currentUrl else v.urls[i])
                   && r.panels[i].zoom == v.panels[i].zoom
                   && (r.panels[i].highlighted <==> i == v.selected)
  {
    var v0 := Init(v.urls, v.count, store);
    assert Usable(Snapshot(v), v0.count);
    ApplySnapshotToFreshView(v, store);
    assert Launch(v.urls, v.count, store) == SelectPanel(ApplySaved(v0, Snapshot(v)), v.selected) by {
      LaunchReselects(v.urls, v.count, store);
    }
  }

  /**
    A view launched with fewer URLs than its count writes a snapshot with
    fewer URLs than the count, so no later start of that launch ever uses it.
  */
  lemma ShortLaunchNeverRestores(v: View, w: View)
    requires WellFormed(v) && |v.urls| < v.count
    requires w.count == v.count && w.store.panelState == Some(Snapshot(v))
    ensures LoadPanelState(w) == w
  {
  }

  /**
    Restoring a state whose selection is panel 0 and whose first URL differs
    from the launch URL: panel 0 shows the restored URL, but the address field
    shows the launch URL, because selecting panel 0 again first stores the
    field's text (the launch URL) as panel 0's pending URL.
  */
  lemma RestoreShowsLaunchUrlInField(urls: seq<string>, count: int, store: Store)
    requires count >= 1 && |urls| >= count
    requires urls[0] != "" && IsTrimmed(urls[0])
    requires store.panelState.Some? && Usable(store.panelState.value, count)
    requires store.panelState.value.selectedIndex == 0
    requires store.panelState.value.urls[0] != "" && store.panelState.value.urls[0] != urls[0]
    ensures var r := Launch(urls, count, store);
              && r.panels[0].currentUrl == store.panelState.value.urls[0]
              && r.panels[0].pendingUrl == urls[0]
              && r.address == urls[0]
              && r.address != r.panels[0].currentUrl
  {
    var s := store.panelState.value;
    var a := ApplySaved(Init(urls, count, store), s);
    assert a.address == urls[0] && a.selected == 0 && |a.panels| == count by {
      assert Init(urls, count, store).address == urls[0];
    }
    assert a.panels[0].currentUrl == s.urls[0] by {
      assert RepointsPanel(urls, 0, s.urls[0]);
    }
    assert Launch(urls, count, store) == SelectPanel(a, 0) by {
      LaunchReselects(urls, count, store);
    }
    TrimOfTrimmed(urls[0]);
  }

  /** A start with a usable snapshot that names a panel ends with that panel re-selected on the restored view. */
  lemma LaunchReselects(urls: seq<string>, count: int, store: Store)
    requires count >= 1
    requires store.panelState.Some? && Usable(store.panelState.value, count)
    requires 0 <= store.panelState.value.selectedIndex < Min(|urls|, count)
    ensures Launch(urls, count, store) ==
              SelectPanel(ApplySaved(Init(urls, count, store), store.panelState.value), store.panelState.value.selectedIndex)
  {
    var v0 := Init(urls, count, store);
    var s := store.panelState.value;
    assert v0.store == store && |v0.panels| == Min(|urls|, count);
    var a := ApplySaved(v0, s);
    assert |a.panels| == Min(|urls|, count);
    assert LoadPanelState(v0) == SelectPanel(a, s.selectedIndex);
  }

  /** A usable snapshot whose selection names no panel is applied without re-selecting anything. */
  lemma LaunchKeepsSelectionOutOfRange(urls: seq<string>, count: int, store: Store)
    requires count >= 1 && |urls| >= 1
    requires store.panelState.Some? && Usable(store.panelState.value, count)
    requires !(0 <= store.panelState.value.selectedIndex < Min(|urls|, count))
    ensures Launch(urls, count, store) == ApplySaved(Init(urls, count, store), store.panelState.value)
  {
    var v0 := Init(urls, count, store);
    assert v0.store == store && |v0.panels| == Min(|urls|, count);
  }

  /** Without a usable snapshot, the start-up is the constructed view itself. */
  lemma LaunchWithoutSnapshotIsInit(urls: seq<string>, count: int, store: Store)
    requires count >= 1
    ensures store.panelState.None? || !Usable(store.panelState.value, count) ==>
              Launch(urls, count, store) == Init(urls, count, store)
  {
  }

  /**
    After a restore that repoints panel 0 and either selects it again (as in
    `RestoreShowsLaunchUrlInField`) or selects no panel, the field still shows
    the launch URL; pressing Enter before typing commits it, pointing panel 0
    back from the restored URL to the launch URL.
  */
  lemma EnterAfterRestoreRepointsBack(urls: seq<string>, count: int, store: Store)
    requires count >= 1 && |urls| >= count
    requires urls[0] != "" && IsTrimmed(urls[0]) && HasViewScheme(urls[0])
    requires store.panelState.Some? && Usable(store.panelState.value, count)
    requires store.panelState.value.selectedIndex == 0 || !(0 <= store.panelState.value.selectedIndex < count)
    requires store.panelState.value.urls[0] != "" && store.panelState.value.urls[0] != urls[0]
    ensures var r := Launch(urls, count, store);
              && r.panels[0].currentUrl == store.panelState.value.urls[0]
              && PressEnter(r).panels[0].currentUrl == urls[0]
  {
    var r := Launch(urls, count, store);
    var s := store.panelState.value;
    if s.selectedIndex == 0 {
      RestoreShowsLaunchUrlInField(urls, count, store);
      assert r.selected == 0 by {
        LaunchReselects(urls, count, store);
      }
    } else {
      assert r.address == urls[0] && r.selected == 0 && r.panels[0].currentUrl == s.urls[0] by {
        LaunchKeepsSelectionOutOfRange(urls, count, store);
        assert Init(urls, count, store).address == urls[0];
        assert RepointsPanel(urls, 0, s.urls[0]);
      }
    }
    TrimOfTrimmed(urls[0]);
  }

}

=== FILE: handoff.dfy ===
/**
  The hand-over from the popup to the panel view: the submitted addresses and
  count become the view's launch parameters.

  The lemmas take the view's launch list and count to be the submitted ones.
  The parameter encoding between the two is not modelled. The view decodes the
  address list once more than the popup encodes it, so every `%` is decoded a
  second time: `%` with two hex digits alters the address, and any other `%`,
  or a `%22`, makes the view's script fail before it builds a panel.
*/
module Handoff {
  import opened Wrappers
  import opened JsText
  import ConfigForm
  import GridView

  /**
    Every submitted address is already in the form the view's address field
    commits: trimming and normalising it in the view gives it back.
  */
  lemma SubmittedUrlsAreCommitted(p: ConfigForm.Popup)
    requires ConfigForm.Submit(p).Some?
    ensures var urls := ConfigForm.Submit(p).value.launch.urls;
      forall i :: 0 <= i < |urls| ==> GridView.NormalizeAddress(Trim(urls[i])) == urls[i]
  {
    var urls := ConfigForm.Submit(p).value.launch.urls;
    forall i | 0 <= i < |urls|
      ensures GridView.NormalizeAddress(Trim(urls[i])) == urls[i]
    {
      ConfigForm.SubmittedUrlShape(p.fields[i]);
      TrimOfTrimmed(urls[i]);
      assert GridView.HasViewScheme(urls[i]);
    }
  }

  /**
    The popup's and the view's normalisations agree on every non-empty text
    except those starting with `about:`, which only the view keeps as they are.
  */
  lemma NormalizersAgreeExceptAbout(t: string)
    requires t != ""
    ensures ConfigForm.FormNormalize(t) == GridView.NormalizeAddress(t) <==> !StartsWith(t, "about:")
  {
    if StartsWith(t, "about:") {
      assert GridView.NormalizeAddress(t) == t;
      assert |ConfigForm.FormNormalize(t)| > |t| by {
        assert !StartsWith(t, "http://") by { assert t[0] == 'a'; }
        assert !StartsWith(t, "https://") by { assert t[0] == 'a'; }
      }
    }
  }

  /**
    A submit with a count of at least one opens a view with exactly that many
    panels. Each panel shows its submitted address unless the stored snapshot
    has the same count and holds a different, non-empty address for it: the
    snapshot is not tied to the submit, so an older session's address wins.
  */
  lemma SubmitOpensOnePanelPerField(p: ConfigForm.Popup, store: GridView.Store)
    requires p.count >= 1 && ConfigForm.Submit(p).Some?
    ensures var l := ConfigForm.Submit(p).value.launch;
      var v := GridView.Launch(l.urls, l.count, store);
      var restores := store.panelState.Some? && GridView.Usable(store.panelState.value, p.count);
      && |v.panels| == p.count
      && forall i :: 0 <= i < p.count ==>
           v.panels[i].currentUrl ==
             (if restores && GridView.RepointsPanel(l.urls, i, store.panelState.value.urls[i])
              then store.panelState.value.urls[i] else l.urls[i])
  {
    var l := ConfigForm.Submit(p).value.launch;
    var v0 := GridView.Init(l.urls, l.count, store);
    assert |v0.panels| == p.count && v0.store == store && v0.urls == l.urls;
  }

  /** One submitted field and a stored one-panel snapshot from an earlier session: the view opens on the old address. */
  lemma StaleSnapshotOverridesSubmit()
    ensures var p := ConfigForm.Popup(1, ["new.com"], ConfigForm.PopupStore(None, None));
      var store := GridView.Store(Some(GridView.SavedState(["https://old.com"], None, 1, 0, None)), None);
      && ConfigForm.Submit(p).Some?
      && ConfigForm.Submit(p).value.launch.urls == ["https://new.com"]
      && GridView.Launch(["https://new.com"], 1, store).panels[0].currentUrl == "https://old.com"
  {
    var p := ConfigForm.Popup(1, ["new.com"], ConfigForm.PopupStore(None, None));
    var store := GridView.Store(Some(GridView.SavedState(["https://old.com"], None, 1, 0, None)), None);
    assert ConfigForm.Submit(p).Some? && ConfigForm.Submit(p).value.launch.urls == ["https://new.com"] by {
      TrimOfTrimmed("new.com");
      assert ConfigForm.FormNormalize("new.com") == "https://new.com" by {
        assert "new.com"[0] == 'n';
      }
    }
    assert GridView.Launch(["https://new.com"], 1, store).panels[0].currentUrl == "https://old.com" by {
      var v0 := GridView.Init(["https://new.com"], 1, store);
      assert |v0.panels| == 1 && v0.store == store && v0.urls == ["https://new.com"];
      assert GridView.RepointsPanel(v0.urls, 0, "https://old.com");
    }
  }

  /**
    Pressing Enter in a freshly opened view, before typing anything, points no
    panel anywhere new when no snapshot is restored: the field shows the first
    submitted address, which is already committed.
  */
  lemma EnterAfterSubmitKeepsPanels(p: ConfigForm.Popup, store: GridView.Store)
    requires p.count >= 1 && ConfigForm.Submit(p).Some?
    ensures var l := ConfigForm.Submit(p).value.launch;
      var v := GridView.Launch(l.urls, l.count, store);
      store.panelState.None? || !GridView.Usable(store.panelState.value, p.count) ==>
        GridView.PressEnter(v).panels == v.panels
  {
    var l := ConfigForm.Submit(p).value.launch;
    if store.panelState.None? || !GridView.Usable(store.panelState.value, p.count) {
      var v := GridView.Init(l.urls, l.count, store);
      GridView.LaunchWithoutSnapshotIsInit(l.urls, l.count, store);
      ConfigForm.SubmittedUrlShape(p.fields[0]);
      assert v.address == l.urls[0] == v.panels[0].currentUrl;
      GridView.EnterOnCommittedKeepsPanels(v);
    }
  }

  /**
    When a snapshot that selects panel 0, or no panel, repoints panel 0 away
    from the first submitted address, Enter before any typing points panel 0
    back to that address.
  */
  lemma EnterAfterStaleRestoreRepointsBack(p: ConfigForm.Popup, store: GridView.Store)
    requires p.count >= 1 && ConfigForm.Submit(p).Some?
    requires store.panelState.Some? && GridView.Usable(store.panelState.value, p.count)
    requires store.panelState.value.selectedIndex == 0 || !(0 <= store.panelState.value.selectedIndex < p.count)
    ensures var l := ConfigForm.Submit(p).value.launch;
      var v := GridView.Launch(l.urls, l.count, store);
      var saved := store.panelState.value.urls[0];
      saved != "" && saved != l.urls[0] ==>
        && v.panels[0].currentUrl == saved
        && GridView.PressEnter(v).panels[0].currentUrl == l.urls[0]
  {
    var l := ConfigForm.Submit(p).value.launch;
    var saved := store.panelState.value.urls[0];
    if saved != "" && saved != l.urls[0] {
      ConfigForm.SubmittedUrlShape(p.fields[0]);
      assert GridView.HasViewScheme(l.urls[0]);
      GridView.EnterAfterRestoreRepointsBack(l.urls, l.count, store);
    }
  }
}

=== FILE: jstext.dfy ===
/**
  The two JavaScript string operations the extension relies on:
  `String.prototype.trim` and `String.prototype.startsWith`.
  Strings are `seq<char>`, where a `char` is a Unicode scalar value; a lone
  surrogate, which a JavaScript string may hold, has no counterpart here.
  Neither `trim` nor the ASCII prefixes passed to `startsWith` depend on it.
*/
module JsText {

  /** The characters `trim` removes: ECMAScript WhiteSpace and LineTerminator. */
  predicate IsSpace(c: char) {
    if c <= ' ' then c == ' ' || '\t' <= c <= '\r'
    else '\U{00A0}' <= c && IsWideSpace(c)
  }

  /** The whitespace characters from U+00A0 upward. */
  predicate IsWideSpace(c: char) {
    || c == '\U{00A0}' || c == '\U{1680}'
    || ('\U{2000}' <= c <= '\U{200A}')
    || c == '\U{2028}' || c == '\U{2029}' || c == '\U{202F}' || c == '\U{205F}'
    || c == '\U{3000}' || c == '\U{FEFF}'
  }

  predicate AllSpace(s: string) {
    forall k :: 0 <= k < |s| ==> IsSpace(s[k])
  }

  /** Neither end of `s` is a whitespace character. */
  predicate IsTrimmed(s: string) {
    s == [] || (!IsSpace(s[0]) && !IsSpace(s[|s| - 1]))
  }

  /** `s.startsWith(p)` */
  predicate StartsWith(s: string, p: string) {
    p <= s
  }

  /** Drops leading whitespace: the result is a suffix of `s` that does not start with whitespace. */
  function TrimStart(s: string): (r: string)
    ensures |r| <= |s| && r == s[|s| - |r|..]
    ensures r == [] || !IsSpace(r[0])
    ensures forall k :: 0 <= k < |s| - |r| ==> IsSpace(s[k])
    decreases |s|
  {
    if |s| > 0 && IsSpace(s[0]) then TrimStart(s[1..]) else s
  }

  /** Drops trailing whitespace: the result is a prefix of `s` that does not end with whitespace. */
  function TrimEnd(s: string): (r: string)
    ensures |r| <= |s| && r == s[..|r|]
    ensures r == [] || !IsSpace(r[|r| - 1])
    ensures forall k :: |r| <= k < |s| ==> IsSpace(s[k])
    decreases |s|
  {
    if |s| > 0 && IsSpace(s[|s| - 1]) then TrimEnd(s[..|s| - 1]) else s
  }

  /** `s.trim()`: leading whitespace dropped, then trailing whitespace. */
  function Trim(s: string): (r: string)
    ensures IsTrimmed(r)
    ensures |r| <= |s|
    decreases |s|
  {
    if |s| > 0 && IsSpace(s[0]) then Trim(s[1..])
    else
      var r := TrimEnd(s);
      assert r != [] ==> r[0] == s[0];
      r
  }

  /** `trim` is `trimStart` followed by `trimEnd`. */
  lemma {:induction false} TrimSplits(s: string)
    ensures Trim(s) == TrimEnd(TrimStart(s))
    decreases |s|
  {
    if |s| > 0 && IsSpace(s[0]) {
      TrimSplits(s[1..]);
    }
  }

  /** Trimming removes nothing from a string that is already trimmed. */
  lemma TrimOfTrimmed(s: string)
    requires IsTrimmed(s)
    ensures Trim(s) == s
  {
    if s != [] {
      assert !IsSpace(s[0]);
      assert !IsSpace(s[|s| - 1]);
      assert TrimEnd(s) == s;
    }
  }

  /** `trim` is idempotent. */
  lemma TrimIdempotent(s: string)
    ensures Trim(Trim(s)) == Trim(s)
  {
    TrimOfTrimmed(Trim(s));
  }

  /** A trimmed string is empty exactly when the input was whitespace only. */
  lemma TrimEmptyIffAllSpace(s: string)
    ensures Trim(s) == [] <==> AllSpace(s)
  {
    TrimSplits(s);
  }
}

=== FILE: layout.dfy ===
/**
  The grid layout of the panel view: the number of columns and rows of the
  CSS grid, derived once from the requested panel count.
*/
module GridLayout {

  datatype Grid = Grid(cols: nat, rows: nat)

  function Sq(d: int): int { d * d }

  lemma SquareMonotone(a: nat, b: nat)
    requires a <= b
    ensures Sq(a) <= Sq(b)
  {
    assert a * a <= a * b <= b * b;
  }

  /**
    Counts upward from `c` to the least value whose square reaches `n`;
    `Math.ceil(Math.sqrt(n))` computed without floating point.
  */
  function CeilSqrtFrom(n: nat, c: nat): (r: nat)
    requires c == 0 || Sq(c - 1) < n
    ensures Sq(r) >= n
    ensures r >= c
    ensures r == 0 || Sq(r - 1) < n
    decreases n - c
  {
    if Sq(c) >= n then c
    else
      assert c < n by {
        if c > 0 { assert c <= c * c; }
      }
      CeilSqrtFrom(n, c + 1)
  }

  /** The least natural number whose square is at least `n`. */
  function CeilSqrt(n: nat): (r: nat)
    ensures Sq(r) >= n
    ensures forall d: nat :: Sq(d) >= n ==> r <= d
  {
    var r := CeilSqrtFrom(n, 0);
    assert forall d: nat :: Sq(d) >= n ==> r <= d by {
      forall d: nat | Sq(d) >= n ensures r <= d {
        if d < r { SquareMonotone(d, r - 1); }
      }
    }
    r
  }

  /** `Math.ceil(n / d)` for positive `d`: the least `q` with `d * q >= n`. */
  function CeilDiv(n: nat, d: nat): (q: nat)
    requires d >= 1
    ensures d * q >= n
    ensures q == 0 || d * (q - 1) < n
  {
    var q := (n + d - 1) / d;
    assert d * q + (n + d - 1) % d == n + d - 1;
    q
  }

  /**
    Layout for a count of panels: 2 gives 2x1, 4 gives 2x2, 6 gives 3x2,
    anything else a near-square grid. Counts below one are not modelled.
  */
  function LayoutFor(count: int): (g: Grid)
    requires count >= 1
    ensures count == 2 ==> g == Grid(2, 1)
    ensures count == 4 ==> g == Grid(2, 2)
    ensures count == 6 ==> g == Grid(3, 2)
    ensures count != 2 && count != 4 && count != 6 ==>
              && Sq(g.cols) >= count
              && (forall d: nat :: Sq(d) >= count ==> g.cols <= d)
    ensures g.cols >= 1 && g.rows >= 1
    ensures g.cols * g.rows >= count
    ensures g.cols * (g.rows - 1) < count
  {
    if count == 2 then Grid(2, 1)
    else if count == 4 then Grid(2, 2)
    else if count == 6 then Grid(3, 2)
    else
      var cols := CeilSqrt(count);
      Grid(cols, CeilDiv(count, cols))
  }

  /** The three fixed layouts are the ones the general near-square rule would choose anyway. */
  lemma FixedLayoutsFollowGeneralRule(count: int)
    requires count == 2 || count == 4 || count == 6
    ensures LayoutFor(count).cols == CeilSqrt(count)
    ensures LayoutFor(count).rows == CeilDiv(count, CeilSqrt(count))
  {
    var c := CeilSqrt(count);
    var e := if count == 2 then 2 else if count == 4 then 2 else 3;
    assert Sq(e) >= count;
    assert c <= e;
    assert c >= e by {
      if c < e { SquareMonotone(c, e - 1); }
    }
  }
}

=== FILE: popup.dfy ===
/**
  The configuration popup: a count selector, one text field per panel, the
  local-storage record the popup keeps up to date, and the submit step that
  builds the launch parameters of the panel view.

  Each handler is one pure transition on `Popup`; the storage record is part
  of the state, so "what is saved" is a property of the result.
*/
module ConfigForm {
  import opened Wrappers
  import opened JsText

  /** Count used when nothing usable is stored. */
  const DefaultCount: int := 6
  /** The count-change handler looks at the fields numbered 1 to 6 only. */
  const MaxCollected: int := 6
  /** What an empty field opens. */
  const BlankPage: string := "about:blank"

  /** The popup's local-storage record: the stored count, already parsed, and the stored address list. */
  datatype PopupStore = PopupStore(tabCount: Option<int>, savedUrls: Option<seq<string>>)

  /** The popup on screen: the selector's parsed value, the contents of the fields, and the storage record. */
  datatype Popup = Popup(count: int, fields: seq<string>, store: PopupStore)

  /** What the submit step hands to the panel view. */
  datatype LaunchRequest = LaunchRequest(urls: seq<string>, count: int)

  /** A successful submit: the popup with its updated record, and the view to open. */
  datatype Submission = Submission(popup: Popup, launch: LaunchRequest)

  // ---------------------------------------------------------------------------
  // Fields and the storage record
  // ---------------------------------------------------------------------------

  /** The stored list, or none; a missing list fills no field. */
  function SavedOrEmpty(saved: Option<seq<string>>): seq<string> {
    match saved
    case None => []
    case Some(us) => us
  }

  /**
    Rebuilds the fields: `count` of them (none for a count below one), field
    `i` showing saved entry `i` when there is one. An empty saved entry and a
    missing one both leave the field empty.
  */
  function CreateInputs(count: int, saved: seq<string>): (fs: seq<string>)
    ensures |fs| == Max(count, 0)
    ensures forall i :: 0 <= i < |fs| ==> fs[i] == (if i < |saved| then saved[i] else "")
    decreases Max(count, 0)
  {
    if count <= 0 then []
    else CreateInputs(count - 1, saved) + [if count - 1 < |saved| then saved[count - 1] else ""]
  }

  /** The trimmed contents of the fields numbered 1 to `n` that exist. */
  function TrimPrefix(fs: seq<string>, n: int): (r: seq<string>)
    ensures |r| == Min(Max(n, 0), |fs|)
    ensures forall i :: 0 <= i < |r| ==> r[i] == Trim(fs[i])
    decreases |fs|
  {
    if n <= 0 || fs == [] then [] else [Trim(fs[0])] + TrimPrefix(fs[1..], n - 1)
  }

  /** Writes the count and the address list to the record. */
  function SaveData(count: int, urls: seq<string>): PopupStore {
    PopupStore(Some(count), Some(urls))
  }

  /** Saves the selector's count and the trimmed contents of the fields up to that count. */
  function SaveCurrentInputs(p: Popup): (r: Popup)
    ensures r.count == p.count && r.fields == p.fields
    ensures r.store.tabCount == Some(p.count) && r.store.savedUrls.Some?
    ensures |r.store.savedUrls.value| == Min(Max(p.count, 0), |p.fields|)
    ensures forall i :: 0 <= i < |r.store.savedUrls.value| ==> r.store.savedUrls.value[i] == Trim(p.fields[i])
  {
    p.(store := SaveData(p.count, TrimPrefix(p.fields, p.count)))
  }

  /**
    The number of fields built when the popup opens: the stored count when an
    address list is stored too and the count is non-zero, six otherwise.
  */
  function InitialCount(store: PopupStore): (c: int)
    ensures c != 0
    ensures store.savedUrls.Some? && store.tabCount.Some? && store.tabCount.value != 0 ==> c == store.tabCount.value
    ensures !(store.savedUrls.Some? && store.tabCount.Some? && store.tabCount.value != 0) ==> c == DefaultCount
  {
    if store.savedUrls.Some? && store.tabCount.Some? && store.tabCount.value != 0 then store.tabCount.value
    else DefaultCount
  }

  /**
    Opening the popup. The selector shows the stored count when there is one
    and otherwise keeps its page default `selectDefault`; the fields are built
    for the initial count and filled from the stored list.
  */
  function OpenPopup(store: PopupStore, selectDefault: int): (p: Popup)
    ensures p.store == store
    ensures p.count == (if store.tabCount.Some? then store.tabCount.value else selectDefault)
    ensures |p.fields| == Max(InitialCount(store), 0)
    ensures forall i :: 0 <= i < |p.fields| ==> p.fields[i] == (if i < |SavedOrEmpty(store.savedUrls)| then store.savedUrls.value[i] else "")
  {
    var count := if store.tabCount.Some? then store.tabCount.value else selectDefault;
    Popup(count, CreateInputs(InitialCount(store), SavedOrEmpty(store.savedUrls)), store)
  }

  /** Typing into field `i`; every keystroke saves. */
  function EditField(p: Popup, i: int, text: string): (r: Popup)
    requires 0 <= i < |p.fields|
    ensures r.count == p.count && |r.fields| == |p.fields|
    ensures r.fields[i] == text
    ensures forall j :: 0 <= j < |p.fields| && j != i ==> r.fields[j] == p.fields[j]
    ensures r == SaveCurrentInputs(r)
  {
    SaveCurrentInputs(p.(fields := p.fields[i := text]))
  }

  /**
    Choosing a new count: the fields numbered 1 to 6 are collected trimmed,
    the fields are rebuilt for the new count from them, and the result saved.
  */
  function ChangeCount(p: Popup, newCount: int): (r: Popup)
    ensures r.count == newCount
    ensures |r.fields| == Max(newCount, 0)
    ensures forall i :: 0 <= i < |r.fields| ==>
      r.fields[i] == (if i < Min(MaxCollected, |p.fields|) then Trim(p.fields[i]) else "")
    ensures r.store == SaveData(newCount, r.fields)
  {
    var collected := TrimPrefix(p.fields, MaxCollected);
    var fs := CreateInputs(newCount, collected);
    forall i | 0 <= i < |fs|
      ensures Trim(fs[i]) == fs[i]
    {
      if i < |collected| {
        TrimIdempotent(p.fields[i]);
      } else {
        TrimOfTrimmed(fs[i]);
      }
    }
    var r := SaveCurrentInputs(Popup(newCount, fs, p.store));
    assert r.store.savedUrls.value == fs;
    r
  }

  // ---------------------------------------------------------------------------
  // Submitting
  // ---------------------------------------------------------------------------

  /** The popup's own address normalisation: empty opens a blank page, `http://` and `https://` are kept, else `https://` is prefixed. */
  function FormNormalize(t: string): (u: string)
    ensures u != ""
    ensures u == BlankPage || StartsWith(u, "http://") || StartsWith(u, "https://")
    ensures u == BlankPage <==> t == ""
    ensures t != "" && (StartsWith(t, "http://") || StartsWith(t, "https://")) ==> u == t
    ensures t != "" && !StartsWith(t, "http://") && !StartsWith(t, "https://") ==> u == "https://" + t
  {
    if t == "" then BlankPage
    else if StartsWith(t, "http://") || StartsWith(t, "https://") then assert t[0] == 'h'; t
    else var u := "https://" + t; assert u[0] == 'h'; u
  }

  /** The launch addresses built from the first `n` fields. */
  function SubmitUrls(fs: seq<string>, n: nat): (us: seq<string>)
    requires n <= |fs|
    ensures |us| == n
    ensures forall i :: 0 <= i < n ==> us[i] == FormNormalize(Trim(fs[i]))
  {
    if n == 0 then [] else SubmitUrls(fs, n - 1) + [FormNormalize(Trim(fs[n - 1]))]
  }

  /**
    The open button. Reading a field past the last one fails, so the handler
    stops before saving or opening anything when the count exceeds the fields.
  */
  function Submit(p: Popup): (r: Option<Submission>)
    ensures r.None? <==> p.count > |p.fields|
    ensures r.Some? ==> r.value.launch.count == p.count && |r.value.launch.urls| == Max(p.count, 0)
    ensures r.Some? ==> forall i :: 0 <= i < |r.value.launch.urls| ==> r.value.launch.urls[i] == FormNormalize(Trim(p.fields[i]))
    ensures r.Some? ==> r.value.popup == p.(store := SaveData(p.count, r.value.launch.urls))
  {
    if p.count > |p.fields| then None
    else
      var urls := SubmitUrls(p.fields, Max(p.count, 0));
      Some(Submission(p.(store := SaveData(p.count, urls)), LaunchRequest(urls, p.count)))
  }

  // ---------------------------------------------------------------------------
  // Events and the consistency of selector and fields
  // ---------------------------------------------------------------------------

  datatype PopupEvent = Edit(field: int, text: string) | Choose(count: int)

  /** One event; typing can only reach a field that exists. */
  function PopupStep(p: Popup, e: PopupEvent): Popup {
    match e
    case Edit(i, text) => if 0 <= i < |p.fields| then EditField(p, i, text) else p
    case Choose(n) => ChangeCount(p, n)
  }

  function PopupRun(p: Popup, es: seq<PopupEvent>): Popup
    decreases |es|
  {
    if es == [] then p else PopupRun(PopupStep(p, es[0]), es[1..])
  }

  /** The selector and the fields agree: one field per counted panel. */
  predicate Consistent(p: Popup) {
    |p.fields| == Max(p.count, 0)
  }

  /** Choosing a count makes the popup consistent, and typing keeps it so. */
  lemma StepConsistent(p: Popup, e: PopupEvent)
    requires Consistent(p) || e.Choose?
    ensures Consistent(PopupStep(p, e))
  {
  }

  lemma {:induction false} RunConsistent(p: Popup, es: seq<PopupEvent>)
    requires Consistent(p) || (es != [] && es[0].Choose?)
    ensures Consistent(PopupRun(p, es))
    decreases |es|
  {
    if es != [] {
      StepConsistent(p, es[0]);
      RunConsistent(PopupStep(p, es[0]), es[1..]);
    }
  }

  /** After the user has chosen a count, submitting always succeeds. */
  lemma SubmitAfterChoosingSucceeds(p: Popup, n: int, es: seq<PopupEvent>)
    ensures Submit(PopupRun(p, [Choose(n)] + es)).Some?
  {
    var q := [Choose(n)] + es;
    assert q[0].Choose? && q[1..] == es;
    RunConsistent(p, q);
  }

  /**
    The count in the selector and the number of fields can disagree when a
    count is stored without an address list; a stored count above six then
    makes the open button fail. The popup never writes that state itself, as
    saving always writes both keys; it comes only from storage written by
    something else.
  */
  lemma StoredCountWithoutUrlsDesyncs(c: int, selectDefault: int)
    requires c > DefaultCount
    ensures OpenPopup(PopupStore(Some(c), None), selectDefault).count == c
    ensures |OpenPopup(PopupStore(Some(c), None), selectDefault).fields| == DefaultCount
    ensures Submit(OpenPopup(PopupStore(Some(c), None), selectDefault)).None?
  {
  }

  // ---------------------------------------------------------------------------
  // Properties
  // ---------------------------------------------------------------------------

  /** Closing and reopening the popup after a save shows the same count and the trimmed fields. */
  lemma ReopenShowsSavedInputs(p: Popup, selectDefault: int)
    requires p.count != 0
    ensures var q := OpenPopup(SaveCurrentInputs(p).store, selectDefault);
      q.count == p.count && |q.fields| == Max(p.count, 0) &&
      forall i :: 0 <= i < |q.fields| ==> q.fields[i] == (if i < |p.fields| then Trim(p.fields[i]) else "")
  {
  }

  /** Changing the count keeps the trimmed entries that fit, up to the sixth. */
  lemma CountChangeKeepsEntries(p: Popup, m: int, k: int)
    requires 0 <= k <= m
    ensures forall i :: 0 <= i < Min(k, Min(MaxCollected, |p.fields|)) ==>
      ChangeCount(ChangeCount(p, m), k).fields[i] == Trim(p.fields[i])
  {
    var r1 := ChangeCount(p, m);
    var r2 := ChangeCount(r1, k);
    forall i | 0 <= i < Min(k, Min(MaxCollected, |p.fields|))
      ensures r2.fields[i] == Trim(p.fields[i])
    {
      TrimIdempotent(p.fields[i]);
    }
  }

  /** Shrinking the count drops the entries beyond it: growing back shows them empty. */
  lemma ShrinkThenGrowLosesEntries(p: Popup, k: int, m: int)
    requires 0 <= k <= m
    ensures forall i :: k <= i < m ==> ChangeCount(ChangeCount(p, k), m).fields[i] == ""
  {
  }

  /** Every submitted address is non-empty, trimmed, and a blank page or an http(s) address. */
  lemma SubmittedUrlShape(t: string)
    ensures var u := FormNormalize(Trim(t));
      u != "" && IsTrimmed(u) && (u == BlankPage || StartsWith(u, "http://") || StartsWith(u, "https://"))
  {
    var s := Trim(t);
    var u := FormNormalize(s);
    if s != "" && u != s {
      assert u[0] == 'h';
      assert u[|u| - 1] == s[|s| - 1];
    }
  }

  /** A field opens a blank page exactly when it holds nothing but whitespace. */
  lemma BlankFieldOpensBlankPage(t: string)
    ensures FormNormalize(Trim(t)) == BlankPage <==> AllSpace(t)
  {
    TrimEmptyIffAllSpace(t);
  }

  /**
    The popup does not recognise `about:`: after a blank field was submitted,
    reopening and submitting again opens `https://about:blank` in its place.
  */
  lemma ResubmitBreaksBlankPage(p: Popup, i: int, selectDefault: int)
    requires 1 <= p.count <= |p.fields|
    requires 0 <= i < p.count && AllSpace(p.fields[i])
    ensures var s := Submit(p).value;
      var q := OpenPopup(s.popup.store, selectDefault);
      Submit(q).Some? && Submit(q).value.launch.urls[i] == "https://about:blank"
  {
    var s := Submit(p).value;
    BlankFieldOpensBlankPage(p.fields[i]);
    assert s.launch.urls[i] == BlankPage;
    var q := OpenPopup(s.popup.store, selectDefault);
    assert q.count == p.count && |q.fields| == p.count;
    assert q.fields[i] == BlankPage;
    TrimOfTrimmed(BlankPage);
    assert FormNormalize(Trim(q.fields[i])) == "https://about:blank";
  }

  /** Submitting the reopened popup again changes no entry that was not a blank page. */
  lemma ResubmitKeepsWebAddresses(p: Popup, selectDefault: int)
    requires 1 <= p.count <= |p.fields|
    ensures var s := Submit(p).value;
      var q := OpenPopup(s.popup.store, selectDefault);
      Submit(q).Some? &&
      forall i :: 0 <= i < p.count && s.launch.urls[i] != BlankPage ==>
        Submit(q).value.launch.urls[i] == s.launch.urls[i]
  {
    var s := Submit(p).value;
    var q := OpenPopup(s.popup.store, selectDefault);
    forall i | 0 <= i < p.count && s.launch.urls[i] != BlankPage
      ensures Submit(q).value.launch.urls[i] == s.launch.urls[i]
    {
      SubmittedUrlShape(p.fields[i]);
      TrimOfTrimmed(s.launch.urls[i]);
    }
  }
}

=== FILE: tiler.dfy ===
/**
  The background tiler. On a "split" message it moves the first tabs of the
  current window into new windows, one per grid cell, laid out row by row over
  the display's work area.

  The tab query, the display query and the window-creation calls are outside
  the model: the tab ids and the work area are parameters, and the result is
  the list of windows the tiler asks for, in the order it asks for them.
  Numbers follow JavaScript: `Math.floor` of a quotient is `FloorDiv`, and for
  the non-negative tab index `%` agrees with Dafny's remainder.
*/
module WindowTiler {
  import opened Wrappers

  /** The message the tiler listens for; only the action "split" does anything. */
  datatype Message = Message(action: string, cols: int, rows: int)

  /** The work area of the first display: its origin and its size. */
  datatype WorkArea = WorkArea(left: int, top: int, width: nat, height: nat)

  datatype Rect = Rect(left: int, top: int, width: int, height: int)

  /** One window-creation request: the tab to move, where to put it, and whether to focus it. */
  datatype WindowRequest = WindowRequest(tabId: int, bounds: Rect, focused: bool)

  const SplitAction: string := "split"

  // ---------------------------------------------------------------------------
  // Arithmetic
  // ---------------------------------------------------------------------------

  /** `Math.floor(a / b)`: the largest integer not above the quotient. */
  function FloorDiv(a: int, b: int): (q: int)
    requires b != 0
    ensures b > 0 ==> b * q <= a < b * q + b
    ensures b < 0 ==> b * q >= a > b * q + b
  {
    if b > 0 then a / b else (-a) / (-b)
  }

  lemma MulLeMono(a: int, b: int, c: nat)
    requires a <= b
    ensures a * c <= b * c
  {
  }

  /** The quotient and remainder by a positive divisor are determined by any matching decomposition. */
  lemma DivModUnique(i: int, d: int, q: int, r: int)
    requires d >= 1 && 0 <= r < d && i == d * q + r
    ensures i / d == q && i % d == r
  {
    var q', r' := i / d, i % d;
    assert d * (q - q') == r' - r;
    if q > q' {
      MulLeMono(1, q - q', d);
    } else if q < q' {
      MulLeMono(1, q' - q, d);
    }
  }

  // ---------------------------------------------------------------------------
  // The grid
  // ---------------------------------------------------------------------------

  /** Column and row of the `i`-th tile: tiles fill the grid row by row. */
  function Column(i: nat, cols: int): int
    requires cols != 0
  {
    i % cols
  }

  function Row(i: nat, cols: int): int
    requires cols != 0
  {
    FloorDiv(i, cols)
  }

  /**
    The bounds of the `i`-th tile. Every tile has the size of one grid cell
    rounded down; the work area's origin is not added, so the grid starts at
    the screen's top-left corner.
  */
  function TileRect(i: nat, cols: int, rows: int, area: WorkArea): Rect
    requires cols != 0 && rows != 0
  {
    var w := FloorDiv(area.width, cols);
    var h := FloorDiv(area.height, rows);
    Rect(Column(i, cols) * w, Row(i, cols) * h, w, h)
  }

  /** The number of tabs moved: the tabs there are, capped by the number of cells; none when the cells are not positive. */
  function Needed(n: nat, cols: int, rows: int): (k: nat)
    ensures k <= n && k <= Max(cols * rows, 0)
    ensures k < n ==> k == Max(cols * rows, 0)
    ensures k > 0 ==> cols != 0 && rows != 0
  {
    Max(0, Min(n, cols * rows))
  }

  /** The requests for the first `n` tabs. */
  function Windows(tabs: seq<int>, cols: int, rows: int, area: WorkArea, n: nat): (ws: seq<WindowRequest>)
    requires n <= |tabs|
    requires n > 0 ==> cols != 0 && rows != 0
    ensures |ws| == n
    ensures forall i :: 0 <= i < n ==> ws[i].tabId == tabs[i] && !ws[i].focused
    ensures forall i :: 0 <= i < n ==> ws[i].bounds == TileRect(i, cols, rows, area)
  {
    if n == 0 then []
    else Windows(tabs, cols, rows, area, n - 1) + [WindowRequest(tabs[n - 1], TileRect(n - 1, cols, rows, area), false)]
  }

  /** Everything the tiler asks for: the first tabs in order, one unfocused window per grid cell. */
  function Tiling(tabs: seq<int>, cols: int, rows: int, area: WorkArea): (ws: seq<WindowRequest>)
    ensures |ws| == Needed(|tabs|, cols, rows)
    ensures forall i :: 0 <= i < |ws| ==> ws[i].tabId == tabs[i] && !ws[i].focused
  {
    Windows(tabs, cols, rows, area, Needed(|tabs|, cols, rows))
  }

  // ---------------------------------------------------------------------------
  // The handlers
  // ---------------------------------------------------------------------------

  /** Creates one window per tab, up to the number of cells, in tab order. */
  method SplitTabs(tabs: seq<int>, cols: int, rows: int, area: WorkArea) returns (ws: seq<WindowRequest>)
    ensures ws == Tiling(tabs, cols, rows, area)
  {
    var needed := Min(|tabs|, cols * rows);
    ws := [];
    if needed <= 0 {
      return;
    }
    var tileW := FloorDiv(area.width, cols);
    var tileH := FloorDiv(area.height, rows);
    var i := 0;
    while i < needed
      invariant 0 <= i <= needed == Needed(|tabs|, cols, rows)
      invariant ws == Windows(tabs, cols, rows, area, i)
    {
      var left := (i % cols) * tileW;
      var top := FloorDiv(i, cols) * tileH;
      ws := ws + [WindowRequest(tabs[i], Rect(left, top, tileW, tileH), false)];
      i := i + 1;
    }
  }

  /** The message listener: a "split" message tiles the window, any other message does nothing. */
  method HandleMessage(msg: Message, tabs: seq<int>, area: WorkArea) returns (ws: seq<WindowRequest>)
    ensures msg.action == SplitAction ==> ws == Tiling(tabs, msg.cols, msg.rows, area)
    ensures msg.action != SplitAction ==> ws == []
  {
    ws := [];
    if msg.action == SplitAction {
      ws := SplitTabs(tabs, msg.cols, msg.rows, area);
    }
  }

  // ---------------------------------------------------------------------------
  // Properties of the grid
  // ---------------------------------------------------------------------------

  predicate Overlap(a: Rect, b: Rect) {
    a.left < b.left + b.width && b.left < a.left + a.width &&
    a.top < b.top + b.height && b.top < a.top + a.height
  }

  predicate Contains(r: Rect, x: int, y: int) {
    r.left <= x < r.left + r.width && r.top <= y < r.top + r.height
  }

  /** A cell `c` of `n` cells of width `w` starts and ends inside a length that holds all `n`. */
  lemma CellFits(c: int, n: int, w: nat, total: int)
    requires 0 <= c < n && n * w <= total
    ensures 0 <= c * w && c * w + w <= total
  {
    MulLeMono(0, c, w);
    MulLeMono(c + 1, n, w);
    assert (c + 1) * w == c * w + w;
  }

  /** Floor division by a positive divisor leaves a remainder below the divisor. */
  lemma DivBounds(a: int, d: int)
    requires d >= 1
    ensures d * (a / d) <= a < d * (a / d) + d
  {
  }

  /** A non-negative number below `d * n` has a quotient by `d` below `n`. */
  lemma QuotBelow(a: int, d: int, n: int)
    requires d >= 1 && 0 <= a < d * n
    ensures 0 <= a / d < n
  {
    var q := a / d;
    DivBounds(a, d);
    if q >= n {
      MulLeMono(n, q, d);
    }
  }

  /** For a grid of at least one column and row, each tile lies inside the area's size, measured from the screen origin. */
  lemma TileWithinArea(i: nat, cols: int, rows: int, area: WorkArea)
    requires cols >= 1 && rows >= 1 && i < cols * rows
    ensures var r := TileRect(i, cols, rows, area);
      0 <= r.left && r.left + r.width <= area.width &&
      0 <= r.top && r.top + r.height <= area.height
  {
    var w, h := area.width / cols, area.height / rows;
    DivBounds(area.width, cols);
    DivBounds(area.height, rows);
    QuotBelow(i, cols, rows);
    CellFits(i % cols, cols, w, area.width);
    CellFits(i / cols, rows, h, area.height);
  }

  /** Two different tiles never overlap. */
  lemma TilesDisjoint(i: nat, j: nat, cols: int, rows: int, area: WorkArea)
    requires cols >= 1 && rows >= 1 && i != j
    ensures !Overlap(TileRect(i, cols, rows, area), TileRect(j, cols, rows, area))
  {
    var w, h := area.width / cols, area.height / rows;
    var ci, qi := i % cols, i / cols;
    var cj, qj := j % cols, j / cols;
    if ci < cj {
      CellsApart(ci, cj, w);
    } else if cj < ci {
      CellsApart(cj, ci, w);
    } else {
      DivModUnique(i, cols, qi, ci);
      DivModUnique(j, cols, qj, cj);
      assert qi != qj;
      if qi < qj {
        CellsApart(qi, qj, h);
      } else {
        CellsApart(qj, qi, h);
      }
    }
  }

  /** An earlier cell ends where or before a later one starts. */
  lemma CellsApart(a: int, b: int, w: nat)
    requires a < b
    ensures a * w + w <= b * w
  {
    MulLeMono(a + 1, b, w);
    assert (a + 1) * w == a * w + w;
  }

  /**
    When every cell is at least one pixel wide and high, every point of the
    grid's extent lies in the tile whose column and row contain it, and that
    tile is one of the grid's cells.
  */
  lemma TilesCoverGrid(x: int, y: int, cols: int, rows: int, area: WorkArea)
    requires cols >= 1 && rows >= 1
    requires area.width / cols >= 1 && area.height / rows >= 1
    requires 0 <= x < cols * (area.width / cols) && 0 <= y < rows * (area.height / rows)
    ensures var i := (y / (area.height / rows)) * cols + x / (area.width / cols);
      0 <= i < cols * rows && Contains(TileRect(i, cols, rows, area), x, y)
  {
    var w, h := area.width / cols, area.height / rows;
    var c, q := x / w, y / h;
    assert x < w * cols && y < h * rows;
    QuotBelow(x, w, cols);
    QuotBelow(y, h, rows);
    DivBounds(x, w);
    DivBounds(y, h);
    var i := q * cols + c;
    DivModUnique(i, cols, q, c);
    CellsApart(q, rows, cols);
    var r := TileRect(i, cols, rows, area);
    assert r.left == c * w && r.top == q * h;
  }

  /** The rectangle lies inside a box of the area's size placed at the screen origin. */
  predicate InsideSize(r: Rect, area: WorkArea) {
    0 <= r.left && r.left + r.width <= area.width &&
    0 <= r.top && r.top + r.height <= area.height
  }

  /** For a grid of at least one column and row, the requested windows fit the area's size and do not overlap. */
  lemma TilingIsAGrid(tabs: seq<int>, cols: int, rows: int, area: WorkArea)
    requires cols >= 1 && rows >= 1
    ensures var ws := Tiling(tabs, cols, rows, area);
      (forall i :: 0 <= i < |ws| ==> InsideSize(ws[i].bounds, area)) &&
      (forall i, j :: 0 <= i < |ws| && 0 <= j < |ws| && i != j ==> !Overlap(ws[i].bounds, ws[j].bounds))
  {
    var ws := Tiling(tabs, cols, rows, area);
    forall i | 0 <= i < |ws|
      ensures InsideSize(ws[i].bounds, area)
    {
      TileWithinArea(i, cols, rows, area);
    }
    forall i, j | 0 <= i < |ws| && 0 <= j < |ws| && i != j
      ensures !Overlap(ws[i].bounds, ws[j].bounds)
    {
      TilesDisjoint(i, j, cols, rows, area);
    }
  }

  /** The grid ignores where the work area starts: a work area at another origin gets the same windows. */
  lemma {:induction false} WindowsIgnoreOrigin(tabs: seq<int>, cols: int, rows: int, area: WorkArea, left: int, top: int, n: nat)
    requires n <= |tabs|
    requires n > 0 ==> cols != 0 && rows != 0
    ensures Windows(tabs, cols, rows, area, n) == Windows(tabs, cols, rows, area.(left := left, top := top), n)
  {
    if n > 0 {
      WindowsIgnoreOrigin(tabs, cols, rows, area, left, top, n - 1);
    }
  }

  /** The first window always sits at the screen origin, wherever the work area starts. */
  lemma FirstTileAtScreenOrigin(tabs: seq<int>, cols: int, rows: int, area: WorkArea)
    requires |tabs| >= 1 && cols >= 1 && rows >= 1
    ensures var ws := Tiling(tabs, cols, rows, area);
      |ws| >= 1 && ws[0].bounds.left == 0 && ws[0].bounds.top == 0
  {
    assert Needed(|tabs|, cols, rows) >= 1 by {
      MulLeMono(1, rows, cols);
    }
  }
}

=== FILE: wrappers.dfy ===
/** Small shared definitions: an optional value and integer minimum/maximum. */
module Wrappers {

  /** A value that may be absent (a missing storage key, an unparsable entry). */
  datatype Option<+T> = None | Some(value: T)

  function Min(a: int, b: int): (r: int)
    ensures r <= a && r <= b
    ensures r == a || r == b
  {
    if a <= b then a else b
  }

  function Max(a: int, b: int): (r: int)
    ensures r >= a && r >= b
    ensures r == a || r == b
  {
    if a >= b then a else b
  }
}
